=== FILE: README.md ===
# proxyd frontend and v1alpha1 sequencer, modelled in Dafny

This project models two pieces of the Talos cluster operating system.

**The proxyd frontend.** This is the TCP reverse proxy in front of the Kubernetes API servers. The model covers:

- The backend registry: a map from identifier to `Backend{uid, addr, connections}`, plus a cached least-connections selection.
- The four mutators that keep it: add, delete, increment and decrement.
- The one-shot cutover from bootstrap probing to pod discovery.
- One iteration of a bootstrap prober's ticker loop.
- The add, update and delete pod-event handlers.
- The increment/decrement pairing of the connection handler.

Each mutator runs under the proxy's mutex, so each one is modelled as an atomic, pure state transition on an immutable `ReverseProxy` value.

**The v1alpha1 sequencer.** This maps a platform mode, and for reset the graceful flag, to an ordered list of phases. Each phase is a list of task names. The model gives each sequence as a constant function and proves ordering facts about it.

Modules, one per component:

| file | module | models |
|---|---|---|
| wrappers.dfy | `Wrappers` | `Option`, for Go's nil pointers and nil slices |
| selection.dfy | `Selection` | `Backend`, `uint32`, the `setCurrent` scan |
| registry.dfy | `Registry` | `ReverseProxy` state, `AddBackend`, `DeleteBackend`, `GetBackend`, `IncrementBackend`, `DecrementBackend`, `stopBootstrapBackends` |
| decimal.dfy | `Decimal` | `%d` rendering of a prober index |
| bootstrap.dfy | `Bootstrap` | the per-endpoint probers of `bootstrap` |
| discovery.dfy | `Discovery` | `isAPIServer`, `AddFunc`, `UpdateFunc`, `DeleteFunc` |
| proxy.dfy | `Proxying` | `proxyConnection` / `joinConnections` bookkeeping |
| sequencer.dfy | `Sequencer` | `Initialize`, `Boot`, `Reboot`, `Reset`, `Shutdown`, `Upgrade` |

How the model represents things the Go code leaves implicit:

- **Map iteration order.** `setCurrent` loops over a Go map, whose iteration order is unspecified. Every operation that rescans the map takes that order as a parameter, `order: seq<string>`. Its precondition says only that `order` lists exactly the keys present after the operation. Every contract holds for all such orders.
- **Tie-breaking.** The selection is specified as "some backend with the minimal count". `AnyLeastMayBeSelected` proves the converse: every minimal backend is chosen under some order. The `fallthrough` at frontend.go:259-260 means any zero-count backend may win.
- **Connection counts.** `Connections` is a `uint32`. `IncrementBackend` wraps from MaxUint32 to 0 (`Inc32`). `setCurrent` starts its scan from MaxUint32 as a sentinel, so while every backend sits at MaxUint32 the selection is not recomputed.
- **The cached selection.** `current` is stored as the `Target(uid, addr)` read through the cached pointer. It is never cleared. After the last backend is deleted, `GetBackend` still returns it (`StaleSelectionAfterLastDelete`, `StaleSelectionStillDialed`).
- **The endpoint slice.** `endpoints` is `Option<seq<string>>`, with `None` standing for a nil slice. `cancelled` records whether the bootstrap context has been cancelled.
- **Prober select outcome.** Which case a prober's `select` takes is a parameter (`TickEvent`). `ContextDone` may only be chosen once the context is cancelled. A tick may still be chosen after cancellation, as in Go.

## Behaviour worth knowing

- **Tie-break.** Ties between equally loaded backends are left to map iteration order; no identifier order is applied, and the model keeps that.
- **Empty registry.** The selection is never cleared: after the registry empties, `GetBackend` keeps returning the last selection, and a new connection dials that deleted backend.
- **Update handler.** On a container going not-ready the update handler deletes the key `old.Status.PodIP`, while entries are keyed by UID. This is logged under Findings.
- **Update's API-server check.** The update handler tests `isAPIServer` on the old pod only, and readiness on the new pod only.
- **Repeated adds.** The add and update handlers fire the cutover even when `AddBackend` reports that the UID was already present.
- **No origin tag.** `Backend` has only `UID`, `Addr` and `Connections`; nothing records whether an entry came from a bootstrap prober or from pod discovery, so the model has no tag either.

## Model

| member | source | states |
|---|---|---|
| Selection.SetCurrent | internal/app/proxyd/internal/frontend/frontend.go:255-266 | if some backend is below MaxUint32, the selection becomes a registered backend whose count is no larger than any other; otherwise the previous selection is kept unchanged, dangling or not |
| Selection.ScanSelects | internal/app/proxyd/internal/frontend/frontend.go:257-265 | the loop moves `current` iff some visited backend is zero or below the running least, and then lands on a visited backend minimal over all visited ones |
| Selection.ScanEndsOnLastZero | internal/app/proxyd/internal/frontend/frontend.go:258-263 | because of the `fallthrough`, the last zero-count backend visited is the final selection, whatever is visited before it or, with non-zero counts, after it |
| Selection.ScanFromZeroKeeps | internal/app/proxyd/internal/frontend/frontend.go:258-263 | once the running least is zero, backends with non-zero counts never move the selection |
| Selection.AnyLeastMayBeSelected | internal/app/proxyd/internal/frontend/frontend.go:256-264 | every backend of minimal count below MaxUint32 is the selection under some iteration order that visits each key exactly once, as a Go map range does, so ties are genuinely unresolved |
| Registry.NewReverseProxy | internal/app/proxyd/internal/frontend/frontend.go:47-53 | a new proxy has no backends and no selection, keeps the given endpoints and satisfies the invariant |
| Registry.GetBackend | internal/app/proxyd/internal/frontend/frontend.go:109-111 | under the invariant, when some backend is selectable the returned backend is registered, least-loaded and has the registered address |
| Registry.AddBackend | internal/app/proxyd/internal/frontend/frontend.go:81-93 | a present uid yields false and the identical state; otherwise `{uid, addr, 0}` is inserted, no other entry changes, the selection becomes a zero-count backend, true is returned, and the invariant is preserved |
| Registry.DeleteBackend | internal/app/proxyd/internal/frontend/frontend.go:96-106 | returns true iff the uid was present; afterwards the uid is absent and every other entry is unchanged; with nothing selectable left the old selection is kept; the invariant is preserved |
| Registry.Inc32 | internal/app/proxyd/internal/frontend/frontend.go:120 | the `uint32` increment adds one below MaxUint32 and wraps MaxUint32 to zero |
| Registry.IncrementBackend | internal/app/proxyd/internal/frontend/frontend.go:114-122 | an unknown uid leaves the state identical; otherwise exactly the named backend gains one connection (mod 2^32) and the invariant is preserved |
| Registry.DecrementBackend | internal/app/proxyd/internal/frontend/frontend.go:125-137 | an unknown uid or a zero count leaves the state identical, so counts never go below zero; otherwise exactly the named backend loses one connection and the invariant is preserved |
| Registry.Apply | internal/app/proxyd/internal/frontend/frontend.go:81-137 | each mutator leaves the key set it should and preserves the invariant |
| Registry.RunKeepsValid | internal/app/proxyd/internal/frontend/frontend.go:255-266 | after any sequence of adds, deletes, increments and decrements, the selection is a registered least-loaded backend whenever any backend is below MaxUint32 |
| Registry.StopBootstrapBackends | internal/app/proxyd/internal/frontend/frontend.go:360-365 | cancel is invoked iff the endpoint slice was non-nil; afterwards the slice is nil, the context is cancelled iff it already was or the slice was non-nil, and the registry is untouched |
| Registry.StopBootstrapIdempotent | internal/app/proxyd/internal/frontend/frontend.go:360-365 | a second cutover invokes nothing and changes nothing |
| Registry.StaleSelectionAfterLastDelete | internal/app/proxyd/internal/frontend/frontend.go:96-111 | adding then deleting the only backend leaves the map empty while `GetBackend` still returns the deleted backend |
| Registry.IncrementThenDecrementRestores | internal/app/proxyd/internal/frontend/frontend.go:114-137 | an increment followed by a decrement of the same uid restores every count when the count is below the wrap point, and is a no-op for unknown uids |
| Registry.IncrementAtMaxWrapsToZero | internal/app/proxyd/internal/frontend/frontend.go:120-135 | at MaxUint32 the same pair leaves the count at zero, not at MaxUint32 |
| Decimal.NatToDecimal | internal/app/proxyd/internal/frontend/frontend.go:373 | the rendering of an index is a non-empty digit string without a leading zero |
| Decimal.DecimalRoundTrip | internal/app/proxyd/internal/frontend/frontend.go:373 | reading the rendered digits back yields the index |
| Decimal.DecimalInjective | internal/app/proxyd/internal/frontend/frontend.go:373 | two indices render equally iff they are equal |
| Bootstrap.BootstrapUid | internal/app/proxyd/internal/frontend/frontend.go:373 | every synthetic identifier starts with `bootstrap-` |
| Bootstrap.BootstrapUidInjective | internal/app/proxyd/internal/frontend/frontend.go:369-373 | two probers share a synthetic identifier iff they have the same index |
| Bootstrap.DistinctBootstrapUids | internal/app/proxyd/internal/frontend/frontend.go:369-373 | the probers started for the first `n` endpoints have pairwise distinct synthetic identifiers |
| Bootstrap.Probers | internal/app/proxyd/internal/frontend/frontend.go:369-370 | one running prober per endpoint; the prober at position `i` has index `i` and carries endpoint `i`, and no two probers share a `bootstrap-<i>` identifier |
| Bootstrap.Tick | internal/app/proxyd/internal/frontend/frontend.go:377-406 | a reachable probe registers `bootstrap-<i>` (fresh entries at the endpoint with no connections; an already registered entry leaves the whole state, its count and the selection identical), a failed probe or the cancelled context removes it, only the context stops the loop, a stopped prober changes nothing, no other entry changes, and the invariant is preserved |
| Bootstrap.TickLeavesOtherProbers | internal/app/proxyd/internal/frontend/frontend.go:373-405 | one prober's iteration never adds, removes or alters another prober's entry |
| Bootstrap.OnlyReachableEndpointSelected | internal/app/proxyd/internal/frontend/frontend.go:377-390 | with endpoints [a, b, c] and only b reachable, one tick each leaves exactly `bootstrap-1` at b registered and selected |
| Discovery.IsAPIServer | internal/app/proxyd/internal/frontend/frontend.go:343-358 | true iff label `component` is `kube-apiserver` or label `k8s-app` is `self-hosted-kube-apiserver` |
| Discovery.AllReady | internal/app/proxyd/internal/frontend/frontend.go:196-200 | the early-return loop passes iff every container status is ready |
| Discovery.OnAdd | internal/app/proxyd/internal/frontend/frontend.go:181-205 | registers UID to PodIP and fires the cutover iff the pod is an API server with a non-empty IP and all containers ready; otherwise does nothing |
| Discovery.OnUpdate | internal/app/proxyd/internal/frontend/frontend.go:209-236 | for an old API-server pod, any not-ready new container deletes the key `old.PodIP` without cutover; otherwise a pod going from empty to non-empty IP registers new UID to new IP and fires the cutover; nothing else happens |
| Discovery.OnDelete | internal/app/proxyd/internal/frontend/frontend.go:240-253 | an API-server pod is deleted by UID, never with a cutover; other pods are ignored |
| Discovery.Carry | internal/app/proxyd/internal/frontend/frontend.go:202-204 | no action leaves the backends and the selection identical; a registration leaves every other entry unchanged, stores a fresh UID as `{uid, ip, 0}` and leaves the state untouched for a present UID; a deletion leaves the key absent and all else unchanged; and cancel fires iff the decision asks for it while endpoints are set; the invariant is preserved |
| Discovery.HandleEvent | internal/app/proxyd/internal/frontend/frontend.go:168-172 | handling any pod event preserves the registry invariant |
| Discovery.CutoverFiresOnce | internal/app/proxyd/internal/frontend/frontend.go:360-365 | over any event stream the bootstrap context is cancelled at most once, and exactly once iff endpoints were set and some event qualifies |
| Discovery.UpdateNotReadyKeepsEntry | internal/app/proxyd/internal/frontend/frontend.go:221-227 | an API-server pod that is added and then updated to not-ready remains registered under its UID |
| Discovery.OnUpdateByUid | internal/app/proxyd/internal/frontend/frontend.go:220-227 | the intended update handler deletes the pod's UID when a container goes not-ready, and fires the cutover iff it registers, so deregistration never cancels the bootstrap context; otherwise it decides as `OnUpdate` |
| Discovery.UpdateByUidDeregisters | internal/app/proxyd/internal/frontend/frontend.go:220-227 | with deletion by UID, a pod whose container goes not-ready is no longer registered, every other entry is unchanged, and the endpoint slice and the bootstrap context are untouched |
| Proxying.ProxyConnection | internal/app/proxyd/internal/frontend/frontend.go:268-308 | with no cached backend there is no dial and no registry call; a dial targets `addr:6443`; a successful dial yields exactly one increment then one decrement of the selected uid, whether or not both connections are TCP; only TCP pairs are joined |
| Proxying.Serve | internal/app/proxyd/internal/frontend/frontend.go:293-299 | serving a connection never changes the set of registered backends |
| Proxying.ServeRestoresCounts | internal/app/proxyd/internal/frontend/frontend.go:293-299 | with nothing interleaved, a served connection leaves every count as it found it, provided the selected backend is below the wrap point |
| Proxying.OpenConnectionCounted | internal/app/proxyd/internal/frontend/frontend.go:293 | while the connection is open the selected backend carries one more connection |
| Proxying.DeleteDuringConnection | internal/app/proxyd/internal/frontend/frontend.go:293-299 | a backend deleted while one of its connections is open stays deleted, and the deferred decrement changes nothing |
| Proxying.StaleSelectionStillDialed | internal/app/proxyd/internal/frontend/frontend.go:269-293 | after the last backend is deleted a new connection still dials its address, and its registry calls are no-ops |
| Sequencer.UpgradeSequence | internal/app/machined/pkg/runtime/v1alpha1/v1alpha1_sequencer.go:279-318 | the upgrade sequence is empty iff the mode is container |
| Sequencer.GracefulResetExtendsReset | internal/app/machined/pkg/runtime/v1alpha1/v1alpha1_sequencer.go:193-240 | outside containers, graceful reset is `[CordonAndDrainNode]`, `[LeaveEtcd]`, `[RemoveAllPods]` followed by exactly the non-graceful reset |
| Sequencer.RebootShutdownDifferInLastPhase | internal/app/machined/pkg/runtime/v1alpha1/v1alpha1_sequencer.go:147-276 | in either mode, reboot and shutdown have the same phases except the last, which is `[Reboot]` and `[Shutdown]` respectively |
| Sequencer.ContainerResetIsShutdown | internal/app/machined/pkg/runtime/v1alpha1/v1alpha1_sequencer.go:182-255 | in the container mode, reset (graceful or not) and shutdown are both `[StopServices]`, `[Shutdown]` |
| Sequencer.RebootTeardownOrder | internal/app/machined/pkg/runtime/v1alpha1/v1alpha1_sequencer.go:159-176 | in reboot, every StopServices phase precedes every overlay/pod unmount phase, which precede UnmountSystemDisks, which precedes UnmountSystemDiskBindMounts |
| Sequencer.ShutdownTeardownOrder | internal/app/machined/pkg/runtime/v1alpha1/v1alpha1_sequencer.go:257-274 | the same unmount order holds in shutdown |
| Sequencer.ResetTeardownOrder | internal/app/machined/pkg/runtime/v1alpha1/v1alpha1_sequencer.go:223-240 | the same unmount order holds in non-graceful reset |
| Sequencer.InitializeNetworkAndConfigOrder | internal/app/machined/pkg/runtime/v1alpha1/v1alpha1_sequencer.go:31-64 | outside containers, SetupDiscoveryNetwork runs in two phases, one after ResetNetwork and one last, and every MountBootPartition phase precedes every SaveConfig phase |
| Sequencer.BootShape | internal/app/machined/pkg/runtime/v1alpha1/v1alpha1_sequencer.go:69-143 | boot starts with `[ValidateConfig]` in both modes, contains MountUserDisks iff not in a container, and outside containers ends with `[UpdateBootloader]` |
| Sequencer.UpgradeStopsServicesAroundUpgrade | internal/app/machined/pkg/runtime/v1alpha1/v1alpha1_sequencer.go:284-316 | outside containers, StopServices runs both before and after the Upgrade phase, and the last phase is `[Reboot]` |

## Findings

| source | as written | input that shows it | evidently intended | confidence | as-written member | corrected member |
|---|---|---|---|---|---|---|
| internal/app/proxyd/internal/frontend/frontend.go:223 | on a container going not-ready, `UpdateFunc` deletes the key `old.Status.PodIP`, but backends are registered under the pod UID (frontend.go:202, 232) | API-server pod UID `uid-1`, IP `10.0.0.5`, one ready container, is added; an update turns the container not-ready; `uid-1` is still registered | delete the pod's UID, as the "deregistered unhealthy API server … (UID …)" log line describes | high (not executed) | Discovery.UpdateNotReadyKeepsEntry | Discovery.UpdateByUidDeregisters |

The main event dispatcher `Discovery.Decide` keeps the code's behaviour (`OnUpdate`). The corrected handler `OnUpdateByUid` runs through the same `Carry`, which applies a decision to the registry.

## Left out

- `Listen` (frontend.go:59-78): socket I/O. Its dispatch of a nil connection after a non-temporary accept error is also not modelled.
- Dialing, `io.Copy`, `CloseRead`, and the goroutine/WaitGroup join of `joinConnections`: network I/O and concurrency. The dial's success and whether both connections are TCP are parameters of `ProxyConnection`. The `c1 == nil || c2 == nil` guard is not modelled, because a successful dial never returns a nil connection and nil inbound connections come only from `Listen`.
- `Watch` (frontend.go:140-178): the informer, the kubeconfig file wait and the client construction are external. The informer's callbacks appear as a serial stream of `PodEvent`s. The context cancel that `Watch` defers on exit is not modelled, so the bootstrap context is cancelled only by the cutover.
- The pod-event handlers' unchecked type assertions `obj.(*v1.Pod)` (frontend.go:184, 212, 214, 243): every event is modelled as carrying a pod, so the panic on an object of another type is not modelled.
- `tlsConfig`, `ConnectTimeout` and the probe's connection close: file I/O and socket handling. The certificate loading matters only through the constructor's error return, listed next.
- Registry.NewReverseProxy: the error return at frontend.go:42-45 is not modelled. When `tlsConfig` fails the Go constructor returns a nil proxy and the error, so no registry exists; the model's constructor always succeeds, because certificate loading is file I/O outside the model.
- The mutex: each locked method is one atomic transition. The unlocked read in `GetBackend`, and registry changes between a handler's `GetBackend` and its `IncrementBackend`, are not modelled. `DeleteDuringConnection` covers only a deletion between the increment and the decrement.
- Registry.Apply: the precondition asks only that `order` list every key present after the operation. It does not ask that each key appear once, so the contracts cover more orders than Go produces.
- Selection.SetCurrent: states that the result is some least-loaded backend, not which one for a given order. The exact rule is that the last zero-count backend visited wins if there is one, and otherwise the first backend with the strict minimum. Only the zero-count half is stated separately (`ScanEndsOnLastZero`), since the order is not observable; the strict-minimum half appears only as `ScanSelects`' "some visited minimum".
- Proxying.ServeRestoresCounts: assumes no other registry operation runs between the increment and the decrement, and that the selected backend's count is below MaxUint32. `IncrementAtMaxWrapsToZero` covers the wrap case.
- Sequencer: the tasks themselves are opaque names. Phases are modelled as ordered lists in source order; how the tasks of one phase are scheduled is not modelled. Every platform mode other than container takes the `default` branch, so the model has only two modes.

=== FILE: bootstrap.dfy ===
/**
  One bootstrap prober per configured endpoint. Each runs a ticker loop
  whose iteration either probes the endpoint (registering or deregistering
  the synthetic backend `bootstrap-<index>`) or, once the bootstrap context
  is cancelled, deregisters that backend and stops.
 */
module Bootstrap {
  import opened Wrappers
  import opened Selection
  import opened Registry
  import opened Decimal

  /** The synthetic identifier `fmt.Sprintf("bootstrap-%d", i)`. */
  function BootstrapUid(i: nat): (uid: string)
    ensures |uid| > 10 && uid[..10] == "bootstrap-"
  {
    "bootstrap-" + NatToDecimal(i)
  }

  /** Two probers never share a synthetic identifier. */
  lemma BootstrapUidInjective(i: nat, j: nat)
    ensures BootstrapUid(i) == BootstrapUid(j) <==> i == j
  {
    if BootstrapUid(i) == BootstrapUid(j) {
      assert NatToDecimal(i) == BootstrapUid(i)[10..];
      assert NatToDecimal(j) == BootstrapUid(j)[10..];
      DecimalInjective(i, j);
    }
  }

  /** A probe goroutine: its index and endpoint, and whether its loop still runs. */
  datatype Prober = Prober(index: nat, endpoint: string, running: bool)

  /** The first `n` probers' identifiers are pairwise distinct. */
  lemma DistinctBootstrapUids(n: nat)
    ensures forall i, j :: 0 <= i < j < n ==> BootstrapUid(i) != BootstrapUid(j)
  {
    forall i, j | 0 <= i < j < n
      ensures BootstrapUid(i) != BootstrapUid(j)
    {
      BootstrapUidInjective(i, j);
    }
  }

  /**
    `bootstrap`: one running prober per endpoint, indexed by position, so
    no two probers register under the same synthetic identifier.
   */
  function Probers(endpoints: seq<string>): (prs: seq<Prober>)
    ensures |prs| == |endpoints|
    ensures forall i :: 0 <= i < |prs| ==> prs[i].index == i && prs[i].endpoint == endpoints[i] && prs[i].running
    ensures forall i, j :: 0 <= i < j < |prs| ==> BootstrapUid(prs[i].index) != BootstrapUid(prs[j].index)
  {
    DistinctBootstrapUids(|endpoints|);
    seq(|endpoints|, i requires 0 <= i < |endpoints| => Prober(i, endpoints[i], true))
  }

  /**
    The case the `select` takes: a tick whose dial reached the endpoint, a
    tick whose dial failed, or the cancelled context.
   */
  datatype TickEvent = ProbeSucceeded | ProbeFailed | ContextDone

  datatype TickResult = TickResult(proxy: ReverseProxy, prober: Prober)

  /** The key set one loop iteration leaves behind. */
  function KeysAfterTick(m: map<string, Backend>, pr: Prober, ev: TickEvent): set<string>
  {
    if ev == ProbeSucceeded then m.Keys + {BootstrapUid(pr.index)}
    else m.Keys - {BootstrapUid(pr.index)}
  }

  /**
    One iteration of a prober's loop. A reachable endpoint is registered
    under the prober's identifier (kept as is if already present), an
    unreachable one is removed, and the cancelled context removes it and
    stops the loop; no other entry changes. A stopped prober does nothing.
   */
  function Tick(p: ReverseProxy, pr: Prober, ev: TickEvent, order: seq<string>): (r: TickResult)
    requires ev == ContextDone ==> p.cancelled
    requires pr.running ==> Enumerates(order, KeysAfterTick(p.backends, pr, ev))
    ensures !pr.running ==> r == TickResult(p, pr)
    ensures pr.running && ev == ProbeSucceeded ==>
      BootstrapUid(pr.index) in r.proxy.backends
      && (BootstrapUid(pr.index) !in p.backends ==>
            r.proxy.backends[BootstrapUid(pr.index)] == Backend(BootstrapUid(pr.index), pr.endpoint, 0))
    ensures pr.running && ev == ProbeSucceeded && BootstrapUid(pr.index) in p.backends ==> r.proxy == p
    ensures pr.running && ev != ProbeSucceeded ==> BootstrapUid(pr.index) !in r.proxy.backends
    ensures SameExcept(p.backends, r.proxy.backends, BootstrapUid(pr.index))
    ensures r.prober == pr.(running := pr.running && ev != ContextDone)
    ensures r.proxy.endpoints == p.endpoints && r.proxy.cancelled == p.cancelled
    ensures Valid(p) ==> Valid(r.proxy)
  {
    if !pr.running then TickResult(p, pr)
    else
      var uid := BootstrapUid(pr.index);
      match ev
      case ProbeSucceeded => TickResult(AddBackend(p, uid, pr.endpoint, order).proxy, pr)
      case ProbeFailed => TickResult(DeleteBackend(p, uid, order).proxy, pr)
      case ContextDone => TickResult(DeleteBackend(p, uid, order).proxy, pr.(running := false))
  }

  /** A prober's iteration never touches another prober's entry. */
  lemma TickLeavesOtherProbers(p: ReverseProxy, pr: Prober, ev: TickEvent, order: seq<string>, j: nat)
    requires ev == ContextDone ==> p.cancelled
    requires pr.running ==> Enumerates(order, KeysAfterTick(p.backends, pr, ev))
    requires j != pr.index
    ensures var q := Tick(p, pr, ev, order).proxy;
      (BootstrapUid(j) in q.backends <==> BootstrapUid(j) in p.backends)
      && (BootstrapUid(j) in p.backends ==> q.backends[BootstrapUid(j)] == p.backends[BootstrapUid(j)])
  {
    BootstrapUidInjective(j, pr.index);
  }

  /**
    Endpoints [a, b, c] with only b reachable: after one tick of each prober
    the registry holds only `bootstrap-1` at b, and it is the selection.
   */
  lemma OnlyReachableEndpointSelected(a: string, b: string, c: string)
    ensures (FirstBootstrapUids();
      var p0 := NewReverseProxy(Some([a, b, c]));
      var prs := Probers([a, b, c]);
      var p1 := Tick(p0, prs[0], ProbeFailed, []).proxy;
      var p2 := Tick(p1, prs[1], ProbeSucceeded, ["bootstrap-1"]).proxy;
      var p3 := Tick(p2, prs[2], ProbeFailed, ["bootstrap-1"]).proxy;
      p3.backends == map["bootstrap-1" := Backend("bootstrap-1", b, 0)]
      && GetBackend(p3) == Some(Target("bootstrap-1", b)))
  {
    FirstBootstrapUids();
  }

  /** The identifiers of the first three probers, as Sprintf renders them. */
  lemma FirstBootstrapUids()
    ensures BootstrapUid(0) == "bootstrap-0"
    ensures BootstrapUid(1) == "bootstrap-1"
    ensures BootstrapUid(2) == "bootstrap-2"
  {
  }
}

=== FILE: decimal.dfy ===
/**
  Base-10 rendering of a natural number, as `fmt.Sprintf("%d", i)` renders a
  non-negative index, with its inverse.
 */
module Decimal {

  function DigitChar(d: nat): (c: char)
    requires d < 10
    ensures '0' <= c <= '9' && c as int - '0' as int == d
  {
    "0123456789"[d]
  }

  function DigitValue(c: char): nat
    requires '0' <= c <= '9'
  {
    c as int - '0' as int
  }

  predicate IsDigits(s: string)
  {
    forall i :: 0 <= i < |s| ==> '0' <= s[i] <= '9'
  }

  /** Most significant digit first, no leading zero, at least one digit. */
  function NatToDecimal(n: nat): (s: string)
    ensures |s| >= 1 && IsDigits(s)
    ensures |s| > 1 ==> s[0] != '0'
    decreases n
  {
    if n < 10 then [DigitChar(n)]
    else NatToDecimal(n / 10) + [DigitChar(n % 10)]
  }

  /** The value a digit string denotes. */
  function DecimalValue(s: string): nat
    requires IsDigits(s)
    decreases |s|
  {
    if s == [] then 0
    else DecimalValue(s[..|s| - 1]) * 10 + DigitValue(s[|s| - 1])
  }

  /** Reading back a rendered number gives the number. */
  lemma {:induction false} DecimalRoundTrip(n: nat)
    ensures DecimalValue(NatToDecimal(n)) == n
    decreases n
  {
    var s := NatToDecimal(n);
    if n < 10 {
      assert s[..|s| - 1] == [];
    } else {
      DecimalRoundTrip(n / 10);
      assert s[..|s| - 1] == NatToDecimal(n / 10);
    }
  }

  /** Distinct numbers render as distinct strings. */
  lemma DecimalInjective(a: nat, b: nat)
    ensures NatToDecimal(a) == NatToDecimal(b) <==> a == b
  {
    DecimalRoundTrip(a);
    DecimalRoundTrip(b);
  }
}

=== FILE: discovery.dfy ===
/**
  The pod event handlers of the proxy (`AddFunc`, `UpdateFunc`,
  `DeleteFunc`): each maps an event to at most one registry operation and a
  flag saying whether the bootstrap cutover is fired afterwards.
 */
module Discovery {
  import opened Wrappers
  import opened Selection
  import opened Registry

  /** The parts of a pod the handlers read. `ready` holds one flag per container status. */
  datatype Pod = Pod(uid: string, ip: string, labels: map<string, string>, ready: seq<bool>)

  datatype PodEvent = Added(pod: Pod) | Updated(before: Pod, after: Pod) | Deleted(pod: Pod)

  datatype Action = NoAction | Register(uid: string, addr: string) | Deregister(key: string)

  datatype Decision = Decision(action: Action, cutover: bool)

  /** The label lookup `labels[key]` with Go's comma-ok test. */
  function Label(labels: map<string, string>, key: string): Option<string>
  {
    if key in labels then Some(labels[key]) else None
  }

  /**
    `isAPIServer`: a pod is an API server when labelled as the static
    (`component`) or the self-hosted (`k8s-app`) API server.
   */
  function IsAPIServer(labels: map<string, string>): (b: bool)
    ensures b <==>
      || ("component" in labels && labels["component"] == "kube-apiserver")
      || ("k8s-app" in labels && labels["k8s-app"] == "self-hosted-kube-apiserver")
  {
    if Label(labels, "component") == Some("kube-apiserver") then true
    else Label(labels, "k8s-app") == Some("self-hosted-kube-apiserver")
  }

  /** The early-return loop over container statuses: no status reports not-ready. */
  function AllReady(ready: seq<bool>): (b: bool)
    ensures b <==> forall i :: 0 <= i < |ready| ==> ready[i]
    decreases |ready|
  {
    if ready == [] then true
    else if !ready[0] then false
    else AllReady(ready[1..])
  }

  /**
    `AddFunc`: an API server pod with an IP whose containers are all ready
    is registered under its UID and fires the cutover; any other pod is
    ignored.
   */
  function OnAdd(pod: Pod): (d: Decision)
    ensures d.action != NoAction <==> IsAPIServer(pod.labels) && pod.ip != "" && AllReady(pod.ready)
    ensures d.action != NoAction ==> d.action == Register(pod.uid, pod.ip)
    ensures d.cutover <==> d.action != NoAction
  {
    if !IsAPIServer(pod.labels) then Decision(NoAction, false)
    else if pod.ip == "" then Decision(NoAction, false)
    else if !AllReady(pod.ready) then Decision(NoAction, false)
    else Decision(Register(pod.uid, pod.ip), true)
  }

  /**
    `UpdateFunc`, as written: the API-server test looks at the pod before the update; any
    not-ready container in the updated pod deletes the key `before.ip` (an address,
    while entries are keyed by UID); otherwise a pod gaining its first IP is
    registered under its updated UID and fires the cutover.
   */
  function OnUpdate(before: Pod, after: Pod): (d: Decision)
    ensures d.action.Deregister? <==> IsAPIServer(before.labels) && !AllReady(after.ready)
    ensures d.action.Deregister? ==> d.action.key == before.ip
    ensures d.action.Register? <==>
      IsAPIServer(before.labels) && AllReady(after.ready) && before.ip == "" && after.ip != ""
    ensures d.action.Register? ==> d.action == Register(after.uid, after.ip)
    ensures d.cutover <==> d.action.Register?
  {
    if !IsAPIServer(before.labels) then Decision(NoAction, false)
    else if !AllReady(after.ready) then Decision(Deregister(before.ip), false)
    else if before.ip == "" && after.ip != "" then Decision(Register(after.uid, after.ip), true)
    else Decision(NoAction, false)
  }

  /** `UpdateFunc` as its log message describes it: deregister the pod's UID. */
  function OnUpdateByUid(before: Pod, after: Pod): (d: Decision)
    ensures d.action.Deregister? <==> IsAPIServer(before.labels) && !AllReady(after.ready)
    ensures d.action.Deregister? ==> d.action.key == before.uid
    ensures d.action.Register? || d.action == NoAction ==> d == OnUpdate(before, after)
    ensures d.cutover <==> d.action.Register?
  {
    if IsAPIServer(before.labels) && !AllReady(after.ready) then Decision(Deregister(before.uid), false)
    else OnUpdate(before, after)
  }

  /** `DeleteFunc`: an API server pod is deregistered by UID; no cutover. */
  function OnDelete(pod: Pod): (d: Decision)
    ensures d.action != NoAction <==> IsAPIServer(pod.labels)
    ensures d.action != NoAction ==> d.action == Deregister(pod.uid)
    ensures !d.cutover
  {
    if IsAPIServer(pod.labels) then Decision(Deregister(pod.uid), false)
    else Decision(NoAction, false)
  }

  /** The single handler the informer's three callbacks amount to. */
  function Decide(ev: PodEvent): Decision
  {
    match ev
    case Added(pod) => OnAdd(pod)
    case Updated(before, after) => OnUpdate(before, after)
    case Deleted(pod) => OnDelete(pod)
  }

  /** The key set a decision's operation leaves behind. */
  function KeysAfterAction(m: map<string, Backend>, a: Action): set<string>
  {
    match a
    case NoAction => m.Keys
    case Register(uid, _) => m.Keys + {uid}
    case Deregister(key) => m.Keys - {key}
  }

  /**
    Carries out a decision: the registry operation, then the cutover when
    flagged (even if the add found the UID already present). `ok` reports
    whether the bootstrap context was cancelled by this event.
   */
  function Carry(p: ReverseProxy, d: Decision, order: seq<string>): (r: Reply)
    requires d.action != NoAction ==> Enumerates(order, KeysAfterAction(p.backends, d.action))
    ensures r.proxy.backends.Keys == KeysAfterAction(p.backends, d.action)
    ensures d.action == NoAction ==> r.proxy.backends == p.backends && r.proxy.current == p.current
    ensures d.action.Register? ==> d.action.uid in r.proxy.backends
    ensures d.action.Register? ==> SameExcept(p.backends, r.proxy.backends, d.action.uid)
    ensures d.action.Register? && d.action.uid !in p.backends ==>
      r.proxy.backends[d.action.uid] == Backend(d.action.uid, d.action.addr, 0)
    ensures d.action.Register? && d.action.uid in p.backends ==>
      r.proxy.backends == p.backends && r.proxy.current == p.current
    ensures d.action.Deregister? ==> d.action.key !in r.proxy.backends
    ensures d.action.Deregister? ==> SameExcept(p.backends, r.proxy.backends, d.action.key)
    ensures r.ok <==> d.cutover && p.endpoints.Some?
    ensures d.cutover ==> r.proxy.endpoints == None
    ensures !d.cutover ==> r.proxy.endpoints == p.endpoints && r.proxy.cancelled == p.cancelled
    ensures Valid(p) ==> Valid(r.proxy)
  {
    var q := match d.action
      case NoAction => p
      case Register(uid, addr) => AddBackend(p, uid, addr, order).proxy
      case Deregister(key) => DeleteBackend(p, key, order).proxy;
    if d.cutover then StopBootstrapBackends(q) else Reply(q, false)
  }

  /** Handles one pod event against the registry. */
  function HandleEvent(p: ReverseProxy, ev: PodEvent, order: seq<string>): (r: Reply)
    requires Decide(ev).action != NoAction ==> Enumerates(order, KeysAfterAction(p.backends, Decide(ev).action))
    ensures Valid(p) ==> Valid(r.proxy)
  {
    Carry(p, Decide(ev), order)
  }

  /** Each event's iteration order enumerates the keys its operation leaves behind. */
  predicate EventsSchedulable(p: ReverseProxy, steps: seq<(PodEvent, seq<string>)>)
    decreases |steps|
  {
    steps == [] ||
    ((Decide(steps[0].0).action != NoAction ==>
        Enumerates(steps[0].1, KeysAfterAction(p.backends, Decide(steps[0].0).action)))
     && EventsSchedulable(HandleEvent(p, steps[0].0, steps[0].1).proxy, steps[1..]))
  }

  /** The final state after a serial event stream, and how many times it cancelled bootstrap. */
  datatype Replay = Replay(proxy: ReverseProxy, cancels: nat)

  function ReplayEvents(p: ReverseProxy, steps: seq<(PodEvent, seq<string>)>): Replay
    requires EventsSchedulable(p, steps)
    decreases |steps|
  {
    if steps == [] then Replay(p, 0)
    else
      var r := HandleEvent(p, steps[0].0, steps[0].1);
      var rest := ReplayEvents(r.proxy, steps[1..]);
      Replay(rest.proxy, rest.cancels + (if r.ok then 1 else 0))
  }

  /** Some event of the stream asks for the cutover. */
  predicate SomeCutover(steps: seq<(PodEvent, seq<string>)>)
  {
    exists i :: 0 <= i < |steps| && Decide(steps[i].0).cutover
  }

  /**
    However many qualifying events arrive, the bootstrap context is cancelled
    at most once, exactly once when endpoints were set and some event
    qualifies, and the endpoint slice is nil afterwards in that case.
   */
  lemma {:induction false} CutoverFiresOnce(p: ReverseProxy, steps: seq<(PodEvent, seq<string>)>)
    requires EventsSchedulable(p, steps)
    ensures ReplayEvents(p, steps).cancels <= 1
    ensures ReplayEvents(p, steps).cancels == 1 <==> p.endpoints.Some? && SomeCutover(steps)
    ensures SomeCutover(steps) ==> ReplayEvents(p, steps).proxy.endpoints == None
    ensures !SomeCutover(steps) ==> ReplayEvents(p, steps).proxy.endpoints == p.endpoints
    decreases |steps|
  {
    if steps != [] {
      var r := HandleEvent(p, steps[0].0, steps[0].1);
      var rest := steps[1..];
      CutoverFiresOnce(r.proxy, rest);
      assert forall i :: 0 <= i < |rest| ==> rest[i] == steps[i + 1];
      if SomeCutover(rest) {
        var i :| 0 <= i < |rest| && Decide(rest[i].0).cutover;
        assert Decide(steps[i + 1].0).cutover;
      }
      if SomeCutover(steps) && !Decide(steps[0].0).cutover {
        var i :| 0 <= i < |steps| && Decide(steps[i].0).cutover;
        assert i > 0 && Decide(rest[i - 1].0).cutover;
      }
    }
  }

  /**
    The update handler as written leaves a pod that goes not-ready
    registered: it deletes the key `before.ip`, but the entry is keyed by UID.
   */
  lemma UpdateNotReadyKeepsEntry()
    ensures var pod := Pod("uid-1", "10.0.0.5", map["component" := "kube-apiserver"], [true]);
      var p0 := NewReverseProxy(None);
      var p1 := HandleEvent(p0, Added(pod), ["uid-1"]).proxy;
      var p2 := HandleEvent(p1, Updated(pod, pod.(ready := [false])), ["uid-1"]).proxy;
      "uid-1" in p1.backends && "uid-1" in p2.backends
  {
  }

  /**
    With deregistration by UID, a pod that goes not-ready is no longer
    registered; every other entry is unchanged and the bootstrap context is
    left alone.
   */
  lemma UpdateByUidDeregisters(p: ReverseProxy, before: Pod, after: Pod, order: seq<string>)
    requires IsAPIServer(before.labels) && !AllReady(after.ready)
    requires Enumerates(order, p.backends.Keys - {before.uid})
    ensures var r := Carry(p, OnUpdateByUid(before, after), order).proxy;
      before.uid !in r.backends && SameExcept(p.backends, r.backends, before.uid)
      && r.endpoints == p.endpoints && r.cancelled == p.cancelled
  {
  }
}

=== FILE: proxy.dfy ===
/**
  The connection handler (`proxyConnection` and `joinConnections`) reduced
  to what it does to the registry: which address it dials and which
  registry calls it makes. The byte copying itself is not modelled.
 */
module Proxying {
  import opened Wrappers
  import opened Selection
  import opened Registry

  /** The API server port the handler appends to the backend address. */
  const APIServerPort: string := "6443"

  /**
    What one accepted connection leads to: the address dialed (None: no dial
    attempt), the registry calls in order, and whether the two connections
    were joined for copying.
   */
  datatype Handling = Handling(dialed: Option<string>, calls: seq<Op>, joined: bool)

  /** Number of calls in `calls` equal to `op`. */
  function Count(calls: seq<Op>, op: Op): nat
    decreases |calls|
  {
    if calls == [] then 0 else (if calls[0] == op then 1 else 0) + Count(calls[1..], op)
  }

  /**
    `proxyConnection`: with no cached backend the inbound connection is
    closed without dialing; a failed dial closes it too; after a successful
    dial the backend is incremented once and, by the deferred call in
    `joinConnections`, decremented once, whether or not both connections
    are TCP and so get joined.
   */
  function ProxyConnection(p: ReverseProxy, dialOk: bool, tcp: bool): (h: Handling)
    ensures GetBackend(p).None? ==> h.dialed.None? && h.calls == [] && !h.joined
    ensures GetBackend(p).Some? ==> h.dialed == Some(GetBackend(p).value.addr + ":" + APIServerPort)
    ensures h.calls != [] <==> GetBackend(p).Some? && dialOk
    ensures h.joined <==> h.calls != [] && tcp
    ensures h.calls != [] ==>
      var uid := GetBackend(p).value.uid;
      Count(h.calls, Increment(uid)) == 1 && Count(h.calls, Decrement(uid)) == 1
      && |h.calls| == 2 && h.calls[0].Increment?
  {
    match GetBackend(p)
    case None => Handling(None, [], false)
    case Some(t) =>
      var addr := t.addr + ":" + APIServerPort;
      if !dialOk then Handling(Some(addr), [], false)
      else
        var calls := [Increment(t.uid), Decrement(t.uid)];
        assert calls[1..][1..] == [];
        assert Count(calls[1..], Increment(t.uid)) == 0;
        assert Count(calls[1..], Decrement(t.uid)) == 1;
        Handling(Some(addr), calls, tcp)
  }

  /** Applies a handler's calls in order, with no other registry change in between. */
  function Serve(p: ReverseProxy, h: Handling, o1: seq<string>, o2: seq<string>): (q: ReverseProxy)
    requires Enumerates(o1, p.backends.Keys) && Enumerates(o2, p.backends.Keys)
    requires |h.calls| == 2 ==> h.calls[0].Increment? && h.calls[1].Decrement?
    ensures q.backends.Keys == p.backends.Keys
  {
    if |h.calls| == 2 then
      var q := IncrementBackend(p, h.calls[0].uid, o1);
      assert q.backends.Keys == p.backends.Keys;
      DecrementBackend(q, h.calls[1].uid, o2)
    else p
  }

  /**
    A connection served to completion leaves every connection count as it
    found it, provided the selected backend is below the wrap point.
   */
  lemma ServeRestoresCounts(p: ReverseProxy, dialOk: bool, tcp: bool, o1: seq<string>, o2: seq<string>)
    requires Enumerates(o1, p.backends.Keys) && Enumerates(o2, p.backends.Keys)
    requires p.current.Some? && p.current.value.uid in p.backends ==>
      p.backends[p.current.value.uid].connections < MaxUint32
    ensures var h := ProxyConnection(p, dialOk, tcp); Serve(p, h, o1, o2).backends == p.backends
  {
  }

  /**
    While the connection is open the selected registered backend carries
    one more connection than before.
   */
  lemma OpenConnectionCounted(p: ReverseProxy, dialOk: bool, tcp: bool, o1: seq<string>)
    requires Valid(p) && HasSelectable(p.backends) && dialOk
    requires Enumerates(o1, p.backends.Keys)
    ensures var t := GetBackend(p).value;
      var q := IncrementBackend(p, ProxyConnection(p, dialOk, tcp).calls[0].uid, o1);
      t.uid in q.backends && q.backends[t.uid].connections == Inc32(p.backends[t.uid].connections)
  {
  }

  /**
    A backend deleted while one of its connections is open stays deleted:
    the deferred decrement finds nothing, and the other entries are as the
    deletion left them.
   */
  lemma DeleteDuringConnection(p: ReverseProxy, uid: string, o1: seq<string>, o2: seq<string>, o3: seq<string>)
    requires Enumerates(o1, p.backends.Keys)
    requires Enumerates(o2, p.backends.Keys - {uid}) && Enumerates(o3, p.backends.Keys - {uid})
    ensures var q1 := IncrementBackend(p, uid, o1);
      var q2 := DeleteBackend(q1, uid, o2).proxy;
      var q3 := DecrementBackend(q2, uid, o3);
      uid !in q3.backends && q3 == q2
  {
  }

  /**
    After the last backend is deleted the handler still dials the deleted
    backend's address, and its registry calls find nothing to change.
   */
  lemma StaleSelectionStillDialed(uid: string, addr: string, o1: seq<string>, o2: seq<string>)
    ensures var p0 := NewReverseProxy(None);
      var p1 := AddBackend(p0, uid, addr, [uid]).proxy;
      var p2 := DeleteBackend(p1, uid, []).proxy;
      var h := ProxyConnection(p2, true, true);
      h.dialed == Some(addr + ":6443") && h.calls == [Increment(uid), Decrement(uid)]
      && Serve(p2, h, [], []) == p2
  {
    StaleSelectionAfterLastDelete(uid, addr);
    var p0 := NewReverseProxy(None);
    var p1 := AddBackend(p0, uid, addr, [uid]).proxy;
    var p2 := DeleteBackend(p1, uid, []).proxy;
    assert GetBackend(p2) == Some(Target(uid, addr));
    var h := ProxyConnection(p2, true, true);
    assert h.calls == [Increment(uid), Decrement(uid)];
    assert addr + ":" + APIServerPort == addr + ":6443";
    assert IncrementBackend(p2, uid, []) == p2;
  }
}

=== FILE: registry.dfy ===
/**
  The backend registry of the reverse proxy: the backend map, the cached
  least-connections selection and the one-shot bootstrap cutover. Each
  operation runs under the proxy's mutex, so it is modelled as one atomic
  state transition; `order` is the map iteration order the Go runtime
  happens to use when the operation rescans the map.
 */
module Registry {
  import opened Wrappers
  import opened Selection

  /**
    The proxy's mutable state. `endpoints` is the bootstrap endpoint slice
    (None when nil); `cancelled` records whether the bootstrap context has
    been cancelled.
   */
  datatype ReverseProxy = ReverseProxy(
    backends: map<string, Backend>,
    current: Option<Target>,
    endpoints: Option<seq<string>>,
    cancelled: bool)

  /** A new state and the boolean the Go method returns. */
  datatype Reply = Reply(proxy: ReverseProxy, ok: bool)

  /** The registry operations, as the event handlers and probers issue them. */
  datatype Op = Add(uid: string, addr: string) | Delete(uid: string) | Increment(uid: string) | Decrement(uid: string)

  /**
    The global invariant: entries are keyed by their own identifier, a cached
    selection that is still registered has that backend's address, whenever
    the scan can pick something the selection is a registered least-loaded
    backend, and the bootstrap context is live while endpoints remain.
   */
  predicate Valid(p: ReverseProxy)
  {
    && WellKeyed(p.backends)
    && (p.current.Some? && p.current.value.uid in p.backends ==>
          p.backends[p.current.value.uid].addr == p.current.value.addr)
    && (HasSelectable(p.backends) ==>
          p.current.Some? && p.current.value.uid in p.backends && IsLeast(p.backends, p.current.value.uid))
    && (p.endpoints.Some? ==> !p.cancelled)
  }

  /** Everything but the entry under `uid` is the same in both maps. */
  predicate SameExcept(m: map<string, Backend>, m': map<string, Backend>, uid: string)
  {
    && (forall k :: k in m && k != uid ==> k in m' && m'[k] == m[k])
    && (forall k :: k in m' && k != uid ==> k in m)
  }

  /** `NewReverseProxy`: no backends, no selection, bootstrap not yet cancelled. */
  function NewReverseProxy(endpoints: Option<seq<string>>): (p: ReverseProxy)
    ensures Valid(p)
    ensures p.backends == map[] && GetBackend(p) == None && p.endpoints == endpoints
  {
    ReverseProxy(map[], None, endpoints, false)
  }

  /** `GetBackend`: the cached selection, read without recomputing it. */
  function GetBackend(p: ReverseProxy): (t: Option<Target>)
    ensures Valid(p) && HasSelectable(p.backends) ==>
      t.Some? && t.value.uid in p.backends && IsLeast(p.backends, t.value.uid)
      && p.backends[t.value.uid].addr == t.value.addr
  {
    p.current
  }

  /**
    `AddBackend`: an identifier already present leaves the state untouched
    and reports false; otherwise the backend is inserted with no connections,
    the selection is recomputed, and true is reported.
   */
  function AddBackend(p: ReverseProxy, uid: string, addr: string, order: seq<string>): (r: Reply)
    requires Enumerates(order, p.backends.Keys + {uid})
    ensures uid in p.backends ==> r == Reply(p, false)
    ensures uid !in p.backends ==>
      r.ok && uid in r.proxy.backends && r.proxy.backends[uid] == Backend(uid, addr, 0)
      && SameExcept(p.backends, r.proxy.backends, uid)
    ensures uid !in p.backends ==>
      exists k :: k in r.proxy.backends && r.proxy.current == Some(TargetOf(r.proxy.backends[k]))
        && r.proxy.backends[k].connections == 0
    ensures r.proxy.endpoints == p.endpoints && r.proxy.cancelled == p.cancelled
    ensures Valid(p) ==> Valid(r.proxy)
  {
    if uid in p.backends then Reply(p, false)
    else
      var m := p.backends[uid := Backend(uid, addr, 0)];
      assert HasSelectable(m) by { assert m[uid].connections < MaxUint32; }
      Reply(p.(backends := m, current := SetCurrent(m, order, p.current)), true)
  }

  /**
    `DeleteBackend`: reports whether the identifier was present, removes it
    and nothing else, and always recomputes the selection; with no
    selectable backend left, the old selection is kept even though it may
    name the deleted backend.
   */
  function DeleteBackend(p: ReverseProxy, uid: string, order: seq<string>): (r: Reply)
    requires Enumerates(order, p.backends.Keys - {uid})
    ensures r.ok <==> uid in p.backends
    ensures uid !in r.proxy.backends && SameExcept(p.backends, r.proxy.backends, uid)
    ensures !HasSelectable(r.proxy.backends) ==> r.proxy.current == p.current
    ensures r.proxy.endpoints == p.endpoints && r.proxy.cancelled == p.cancelled
    ensures Valid(p) ==> Valid(r.proxy)
  {
    var m := p.backends - {uid};
    Reply(p.(backends := m, current := SetCurrent(m, order, p.current)), uid in p.backends)
  }

  /** The `uint32` increment, wrapping from MaxUint32 to zero. */
  function Inc32(c: uint32): (r: uint32)
    ensures c < MaxUint32 ==> r == c + 1
    ensures c == MaxUint32 ==> r == 0
  {
    (c + 1) % (MaxUint32 + 1)
  }

  /**
    `IncrementBackend`: an unknown identifier changes nothing; otherwise the
    named backend gains one connection (modulo 2^32), every other entry is
    unchanged, and the selection is recomputed.
   */
  function IncrementBackend(p: ReverseProxy, uid: string, order: seq<string>): (r: ReverseProxy)
    requires Enumerates(order, p.backends.Keys)
    ensures uid !in p.backends ==> r == p
    ensures uid in p.backends ==>
      uid in r.backends
      && r.backends[uid] == p.backends[uid].(connections := Inc32(p.backends[uid].connections))
      && SameExcept(p.backends, r.backends, uid)
    ensures r.endpoints == p.endpoints && r.cancelled == p.cancelled
    ensures Valid(p) ==> Valid(r)
  {
    if uid !in p.backends then p
    else
      var b := p.backends[uid];
      var m := p.backends[uid := b.(connections := Inc32(b.connections))];
      assert m.Keys == p.backends.Keys;
      p.(backends := m, current := SetCurrent(m, order, p.current))
  }

  /**
    `DecrementBackend`: an unknown identifier or a count already at zero
    changes nothing, so a count never goes below zero; otherwise the named
    backend loses exactly one connection and the selection is recomputed.
   */
  function DecrementBackend(p: ReverseProxy, uid: string, order: seq<string>): (r: ReverseProxy)
    requires Enumerates(order, p.backends.Keys)
    ensures uid !in p.backends || p.backends[uid].connections == 0 ==> r == p
    ensures uid in p.backends && p.backends[uid].connections > 0 ==>
      uid in r.backends
      && r.backends[uid] == p.backends[uid].(connections := p.backends[uid].connections - 1)
      && SameExcept(p.backends, r.backends, uid)
    ensures r.endpoints == p.endpoints && r.cancelled == p.cancelled
    ensures Valid(p) ==> Valid(r)
  {
    if uid !in p.backends then p
    else if p.backends[uid].connections == 0 then p
    else
      var b := p.backends[uid];
      var m := p.backends[uid := b.(connections := b.connections - 1)];
      assert m.Keys == p.backends.Keys;
      p.(backends := m, current := SetCurrent(m, order, p.current))
  }

  /** The key set an operation leaves behind, which its rescan visits. */
  function KeysAfter(m: map<string, Backend>, op: Op): set<string>
  {
    match op
    case Add(uid, _) => m.Keys + {uid}
    case Delete(uid) => m.Keys - {uid}
    case Increment(_) => m.Keys
    case Decrement(_) => m.Keys
  }

  /** Performs one registry operation, dropping the reported boolean. */
  function Apply(p: ReverseProxy, op: Op, order: seq<string>): (r: ReverseProxy)
    requires Enumerates(order, KeysAfter(p.backends, op))
    ensures r.backends.Keys == KeysAfter(p.backends, op)
    ensures Valid(p) ==> Valid(r)
  {
    match op
    case Add(uid, addr) => AddBackend(p, uid, addr, order).proxy
    case Delete(uid) => DeleteBackend(p, uid, order).proxy
    case Increment(uid) => IncrementBackend(p, uid, order)
    case Decrement(uid) => DecrementBackend(p, uid, order)
  }

  /** Each step's iteration order enumerates the keys that step leaves behind. */
  predicate Schedulable(p: ReverseProxy, steps: seq<(Op, seq<string>)>)
    decreases |steps|
  {
    steps == [] ||
    (Enumerates(steps[0].1, KeysAfter(p.backends, steps[0].0))
     && Schedulable(Apply(p, steps[0].0, steps[0].1), steps[1..]))
  }

  /** Performs the operations one after another, as the mutex serialises them. */
  function Run(p: ReverseProxy, steps: seq<(Op, seq<string>)>): ReverseProxy
    requires Schedulable(p, steps)
    decreases |steps|
  {
    if steps == [] then p else Run(Apply(p, steps[0].0, steps[0].1), steps[1..])
  }

  /**
    For every sequence of adds, deletes, increments and decrements, the
    invariant survives: in particular the cached selection is a registered
    backend of minimal count whenever any backend is below the sentinel.
   */
  lemma {:induction false} RunKeepsValid(p: ReverseProxy, steps: seq<(Op, seq<string>)>)
    requires Valid(p) && Schedulable(p, steps)
    ensures Valid(Run(p, steps))
    ensures HasSelectable(Run(p, steps).backends) ==>
      var q := Run(p, steps);
      q.current.Some? && q.current.value.uid in q.backends && IsLeast(q.backends, q.current.value.uid)
    decreases |steps|
  {
    if steps != [] {
      RunKeepsValid(Apply(p, steps[0].0, steps[0].1), steps[1..]);
    }
  }

  /**
    `stopBootstrapBackends`: while the endpoint slice is non-nil, cancels the
    bootstrap context (reported as true) and sets the slice to nil; once it
    is nil the call does nothing. The registry itself is not touched.
   */
  function StopBootstrapBackends(p: ReverseProxy): (r: Reply)
    ensures r.ok <==> p.endpoints.Some?
    ensures r.proxy.endpoints == None
    ensures r.proxy.cancelled <==> p.cancelled || p.endpoints.Some?
    ensures r.proxy.backends == p.backends && r.proxy.current == p.current
    ensures Valid(p) ==> Valid(r.proxy)
  {
    if p.endpoints.Some? then Reply(p.(endpoints := None, cancelled := true), true)
    else Reply(p, false)
  }

  /** A second cutover is a no-op: cancel is invoked at most once. */
  lemma StopBootstrapIdempotent(p: ReverseProxy)
    ensures var once := StopBootstrapBackends(p).proxy;
      StopBootstrapBackends(once) == Reply(once, false)
  {
  }

  /**
    The stale selection: once the last backend is deleted, `GetBackend`
    still returns it.
   */
  lemma StaleSelectionAfterLastDelete(uid: string, addr: string)
    ensures var p0 := NewReverseProxy(None);
      var p1 := AddBackend(p0, uid, addr, [uid]).proxy;
      var p2 := DeleteBackend(p1, uid, []).proxy;
      p2.backends == map[] && GetBackend(p2) == Some(Target(uid, addr))
  {
  }

  /**
    With no concurrent change in between, an increment followed by a
    decrement of a registered backend below the wrap point restores every
    connection count.
   */
  lemma IncrementThenDecrementRestores(p: ReverseProxy, uid: string, o1: seq<string>, o2: seq<string>)
    requires Enumerates(o1, p.backends.Keys) && Enumerates(o2, p.backends.Keys)
    requires uid in p.backends ==> p.backends[uid].connections < MaxUint32
    ensures var q := IncrementBackend(p, uid, o1);
      Enumerates(o2, q.backends.Keys) && DecrementBackend(q, uid, o2).backends == p.backends
  {
  }

  /** At the wrap point the same pair resets the count to zero instead. */
  lemma IncrementAtMaxWrapsToZero(p: ReverseProxy, uid: string, o1: seq<string>, o2: seq<string>)
    requires Enumerates(o1, p.backends.Keys) && Enumerates(o2, p.backends.Keys)
    requires uid in p.backends && p.backends[uid].connections == MaxUint32
    ensures var q := IncrementBackend(p, uid, o1);
      Enumerates(o2, q.backends.Keys) && DecrementBackend(q, uid, o2).backends[uid].connections == 0
  {
  }
}

=== FILE: selection.dfy ===
/**
  Least-connections selection over the backend map: the `setCurrent` loop of
  the proxy frontend, with Go's unspecified map iteration order made an
  explicit parameter.
 */
module Selection {
  import opened Wrappers

  /** Largest value of Go's `uint32`; `setCurrent` starts its scan from it. */
  const MaxUint32: int := 0xFFFF_FFFF

  type uint32 = x: int | 0 <= x <= 0xFFFF_FFFF

  /** One registered API server: identifier, address and live connection count. */
  datatype Backend = Backend(uid: string, addr: string, connections: uint32)

  /** The parts of a backend a connection handler reads from the cached pointer. */
  datatype Target = Target(uid: string, addr: string)

  function TargetOf(b: Backend): Target
  {
    Target(b.uid, b.addr)
  }

  /** `order` lists exactly the keys of a map: one Go iteration over it. */
  predicate Enumerates(order: seq<string>, keys: set<string>)
  {
    (forall k :: k in order ==> k in keys) && (forall k :: k in keys ==> k in order)
  }

  /** Every entry is stored under its own identifier. */
  predicate WellKeyed(m: map<string, Backend>)
  {
    forall k :: k in m ==> m[k].uid == k
  }

  /** The backend under `k` has no more connections than any other. */
  predicate IsLeast(m: map<string, Backend>, k: string)
    requires k in m
  {
    forall j :: j in m ==> m[k].connections <= m[j].connections
  }

  /** Some backend is below the scan's starting sentinel, so the scan picks one. */
  predicate HasSelectable(m: map<string, Backend>)
  {
    exists k :: k in m && m[k].connections < MaxUint32
  }

  /** The condition under which one loop step moves `current`. */
  predicate Qualifies(b: Backend, least: uint32)
  {
    b.connections == 0 || b.connections < least
  }

  /** The loop of `setCurrent`, visiting the keys in `order`. */
  function Scan(m: map<string, Backend>, order: seq<string>, least: uint32, cur: Option<Target>): Option<Target>
    requires forall k :: k in order ==> k in m
    decreases |order|
  {
    if order == [] then cur
    else
      var b := m[order[0]];
      if Qualifies(b, least) then Scan(m, order[1..], b.connections, Some(TargetOf(b)))
      else Scan(m, order[1..], least, cur)
  }

  /**
    The scan moves `current` iff some visited backend qualifies, and then
    lands on a visited backend no larger than `least` or any other visited one.
   */
  lemma {:induction false} ScanSelects(m: map<string, Backend>, order: seq<string>, least: uint32, cur: Option<Target>)
    requires forall k :: k in order ==> k in m
    ensures (exists k :: k in order && Qualifies(m[k], least)) ==>
      exists k :: k in order && Scan(m, order, least, cur) == Some(TargetOf(m[k]))
        && m[k].connections <= least
        && forall j :: j in order ==> m[k].connections <= m[j].connections
    ensures (forall k :: k in order ==> !Qualifies(m[k], least)) ==> Scan(m, order, least, cur) == cur
    decreases |order|
  {
    if order != [] {
      var k0, rest := order[0], order[1..];
      assert forall j :: j in order <==> j == k0 || j in rest;
      var b := m[k0];
      if Qualifies(b, least) {
        ScanSelects(m, rest, b.connections, Some(TargetOf(b)));
        if exists k :: k in rest && Qualifies(m[k], b.connections) {
          var k :| k in rest && Scan(m, rest, b.connections, Some(TargetOf(b))) == Some(TargetOf(m[k]))
            && m[k].connections <= b.connections
            && forall j :: j in rest ==> m[k].connections <= m[j].connections;
          assert k in order;
        } else {
          assert forall j :: j in rest ==> b.connections <= m[j].connections;
          assert k0 in order;
        }
      } else {
        ScanSelects(m, rest, least, cur);
        if exists k :: k in order && Qualifies(m[k], least) {
          var k :| k in order && Qualifies(m[k], least);
          assert k in rest;
          var w :| w in rest && Scan(m, rest, least, cur) == Some(TargetOf(m[w]))
            && m[w].connections <= least
            && forall j :: j in rest ==> m[w].connections <= m[j].connections;
          assert w in order;
        }
      }
    }
  }

  /**
    `setCurrent`: rescans every backend and caches one with the fewest
    connections; when no backend is below the sentinel (in particular when
    the map is empty) the previous selection is kept, even if it no longer
    names a registered backend.
   */
  function SetCurrent(m: map<string, Backend>, order: seq<string>, cur: Option<Target>): (sel: Option<Target>)
    requires Enumerates(order, m.Keys)
    ensures HasSelectable(m) ==>
      exists k :: k in m && sel == Some(TargetOf(m[k])) && IsLeast(m, k)
    ensures !HasSelectable(m) ==> sel == cur
  {
    ScanSelects(m, order, MaxUint32, cur);
    SelectableQualifies(m, order);
    Scan(m, order, MaxUint32, cur)
  }

  /** Below the sentinel is exactly what qualifies on the first comparison. */
  lemma SelectableQualifies(m: map<string, Backend>, order: seq<string>)
    requires Enumerates(order, m.Keys)
    ensures HasSelectable(m) <==> exists k :: k in order && Qualifies(m[k], MaxUint32)
  {
  }

  /** No key is visited twice, as in a Go `range` over a map. */
  predicate NoDups(order: seq<string>)
  {
    forall i, j :: 0 <= i < j < |order| ==> order[i] != order[j]
  }

  /** Any set of keys can be visited in some order, each key once. */
  ghost function EnumerationOf(keys: set<string>): (order: seq<string>)
    ensures Enumerates(order, keys) && NoDups(order)
    decreases keys
  {
    if keys == {} then []
    else
      var k :| k in keys;
      var rest := EnumerationOf(keys - {k});
      assert k !in rest;
      [k] + rest
  }

  /** Once the running least is zero, only another zero-count backend can move the selection. */
  lemma {:induction false} ScanFromZeroKeeps(m: map<string, Backend>, order: seq<string>, cur: Option<Target>)
    requires forall k :: k in order ==> k in m
    requires forall j :: 0 <= j < |order| ==> m[order[j]].connections != 0
    ensures Scan(m, order, 0, cur) == cur
    decreases |order|
  {
    if order != [] {
      assert !Qualifies(m[order[0]], 0);
      ScanFromZeroKeeps(m, order[1..], cur);
    }
  }

  /**
    Because of the `fallthrough`, the last zero-count backend visited ends the
    scan as the selection, whatever was visited before or after it.
   */
  lemma {:induction false} ScanEndsOnLastZero(m: map<string, Backend>, order: seq<string>, i: nat, least: uint32, cur: Option<Target>)
    requires forall k :: k in order ==> k in m
    requires i < |order| && m[order[i]].connections == 0
    requires forall j :: i < j < |order| ==> m[order[j]].connections != 0
    ensures Scan(m, order, least, cur) == Some(TargetOf(m[order[i]]))
    decreases |order|
  {
    var b := m[order[0]];
    if i == 0 {
      assert Qualifies(b, least);
      ScanFromZeroKeeps(m, order[1..], Some(TargetOf(b)));
    } else if Qualifies(b, least) {
      ScanEndsOnLastZero(m, order[1..], i - 1, b.connections, Some(TargetOf(b)));
    } else {
      ScanEndsOnLastZero(m, order[1..], i - 1, least, cur);
    }
  }

  /**
    The tie-break is left to the iteration order: every backend with the
    minimal count below the sentinel is the selection under some order.
    Together with `SetCurrent`'s contract this says the selection is exactly
    "some least-loaded backend".
   */
  lemma AnyLeastMayBeSelected(m: map<string, Backend>, k: string, cur: Option<Target>)
    requires k in m && m[k].connections < MaxUint32 && IsLeast(m, k)
    ensures exists order :: Enumerates(order, m.Keys) && NoDups(order) && SetCurrent(m, order, cur) == Some(TargetOf(m[k]))
  {
    var rest := EnumerationOf(m.Keys - {k});
    assert k !in rest;
    if m[k].connections == 0 {
      var order := rest + [k];
      assert Enumerates(order, m.Keys) && NoDups(order);
      ScanEndsOnLastZero(m, order, |order| - 1, MaxUint32, cur);
      assert SetCurrent(m, order, cur) == Some(TargetOf(m[k]));
    } else {
      var order := [k] + rest;
      assert Enumerates(order, m.Keys) && NoDups(order);
      assert order[1..] == rest;
      ScanSelects(m, rest, m[k].connections, Some(TargetOf(m[k])));
      assert SetCurrent(m, order, cur) == Scan(m, rest, m[k].connections, Some(TargetOf(m[k])));
    }
  }
}

=== FILE: sequencer.dfy ===
/**
  The v1alpha1 sequencer: for each machine action, the ordered list of
  phases to run, where a phase is the list of tasks run together. Only the
  platform mode (and, for reset, the graceful flag) selects the list.
 */
module Sequencer {

  /** The container mode has its own lists; every other mode takes the default branch. */
  datatype Mode = Container | NonContainer

  datatype Task =
    | WriteRequiredSysctlsForContainer | SetupSystemDirectory | CreatOSReleaseFile | SaveConfig
    | EnforceKSPPRequirements | WriteRequiredSysctls | MountBPFFS | MountCgroups | MountSubDevices
    | SetFileLimit | WriteIMAPolicy | CreateEtcNetworkFiles | SetupDiscoveryNetwork
    | MountBootPartition | ResetNetwork
    | ValidateConfig | SetUserEnvVars | StartStage1SystemServices | InitializePlatform
    | VerifyInstallation | MountVolumesAsSharedForContainer | SetupVarDirectory
    | MountOverlayFilesystems | MountUserDisks | WriteUserFiles | WriteUserSysctls
    | StartStage2SystemServices | StartOrchestrationServices | LabelNodeAsMaster | UpdateBootloader
    | StopServices | UnmountOverlayFilesystems | UnmountPodMounts | UnmountSystemDisks
    | UnmountSystemDiskBindMounts | Reboot | Shutdown | CordonAndDrainNode | LeaveEtcd
    | RemoveAllPods | ResetSystemDisk | VerifyDiskAvailability | Upgrade

  type Phase = seq<Task>

  /** Some phase holding `a` comes strictly before some phase holding `b`. */
  ghost predicate RunsBefore(phases: seq<Phase>, a: Task, b: Task)
  {
    exists i, j :: 0 <= i < j < |phases| && a in phases[i] && b in phases[j]
  }

  /** Both tasks occur, and every phase holding `a` comes strictly before every phase holding `b`. */
  ghost predicate AlwaysBefore(phases: seq<Phase>, a: Task, b: Task)
  {
    && RunsBefore(phases, a, b)
    && forall i, j :: 0 <= i < |phases| && 0 <= j < |phases| && a in phases[i] && b in phases[j] ==> i < j
  }

  /** Index of the first phase at or after `i` holding `t`, or `|phases|` when none does. */
  function FirstPhaseFrom(phases: seq<Phase>, t: Task, i: nat): (r: nat)
    requires i <= |phases|
    ensures i <= r <= |phases|
    ensures forall k :: i <= k < r ==> t !in phases[k]
    ensures r < |phases| ==> t in phases[r]
    decreases |phases| - i
  {
    if i == |phases| then i
    else if t in phases[i] then i
    else FirstPhaseFrom(phases, t, i + 1)
  }

  /** Index of the last phase at or after `i` holding `t`, or -1 when none does. */
  function LastPhaseFrom(phases: seq<Phase>, t: Task, i: nat): (r: int)
    requires i <= |phases|
    ensures r == -1 || i <= r < |phases|
    ensures forall k :: i <= k < |phases| && r < k ==> t !in phases[k]
    ensures r >= 0 ==> t in phases[r]
    decreases |phases| - i
  {
    if i == |phases| then -1
    else
      var later := LastPhaseFrom(phases, t, i + 1);
      if later >= 0 then later
      else if t in phases[i] then i
      else -1
  }

  function FirstPhaseOf(phases: seq<Phase>, t: Task): nat
  {
    FirstPhaseFrom(phases, t, 0)
  }

  function LastPhaseOf(phases: seq<Phase>, t: Task): int
  {
    LastPhaseFrom(phases, t, 0)
  }

  /** Decides `AlwaysBefore` by comparing the last phase of `a` with the first of `b`. */
  predicate Precedes(phases: seq<Phase>, a: Task, b: Task)
  {
    0 <= LastPhaseOf(phases, a) < FirstPhaseOf(phases, b) < |phases|
  }

  lemma PrecedesIsAlwaysBefore(phases: seq<Phase>, a: Task, b: Task)
    ensures Precedes(phases, a, b) <==> AlwaysBefore(phases, a, b)
  {
    var la, fb := LastPhaseOf(phases, a), FirstPhaseOf(phases, b);
    if Precedes(phases, a, b) {
      assert a in phases[la] && b in phases[fb];
    }
    if AlwaysBefore(phases, a, b) {
      var i, j :| 0 <= i < j < |phases| && a in phases[i] && b in phases[j];
      assert la >= i && fb <= j;
      assert a in phases[la] && b in phases[fb];
    }
  }

  /** Number of phases from index `i` on in which `t` appears. */
  function PhasesWithFrom(phases: seq<Phase>, t: Task, i: nat): (n: nat)
    requires i <= |phases|
    ensures n <= |phases| - i
    ensures n == 0 <==> forall k :: i <= k < |phases| ==> t !in phases[k]
    decreases |phases| - i
  {
    if i == |phases| then 0
    else (if t in phases[i] then 1 else 0) + PhasesWithFrom(phases, t, i + 1)
  }

  /** Number of phases in which `t` appears. */
  function PhasesWith(phases: seq<Phase>, t: Task): nat
  {
    PhasesWithFrom(phases, t, 0)
  }

  function InitializeSequence(mode: Mode): seq<Phase>
  {
    match mode
    case Container => [
      [WriteRequiredSysctlsForContainer, SetupSystemDirectory],
      [CreatOSReleaseFile],
      [SaveConfig]]
    case NonContainer => [
      [EnforceKSPPRequirements, WriteRequiredSysctls, SetupSystemDirectory, MountBPFFS,
       MountCgroups, MountSubDevices, SetFileLimit],
      [WriteIMAPolicy],
      [CreateEtcNetworkFiles, CreatOSReleaseFile],
      [SetupDiscoveryNetwork],
      [MountBootPartition],
      [SaveConfig],
      [ResetNetwork],
      [SetupDiscoveryNetwork]]
  }

  function BootSequence(mode: Mode): seq<Phase>
  {
    match mode
    case Container => [
      [ValidateConfig],
      [SetUserEnvVars],
      [StartStage1SystemServices],
      [InitializePlatform],
      [VerifyInstallation],
      [MountVolumesAsSharedForContainer, SetupVarDirectory],
      [WriteUserFiles, WriteUserSysctls],
      [StartStage2SystemServices, StartOrchestrationServices],
      [LabelNodeAsMaster]]
    case NonContainer => [
      [ValidateConfig],
      [SetUserEnvVars],
      [StartStage1SystemServices],
      [InitializePlatform],
      [VerifyInstallation],
      [MountOverlayFilesystems, SetupVarDirectory],
      [MountUserDisks],
      [WriteUserFiles, WriteUserSysctls],
      [StartStage2SystemServices, StartOrchestrationServices],
      [LabelNodeAsMaster],
      [UpdateBootloader]]
  }

  function RebootSequence(mode: Mode): seq<Phase>
  {
    match mode
    case Container => [[StopServices], [Reboot]]
    case NonContainer => [
      [StopServices],
      [UnmountOverlayFilesystems, UnmountPodMounts],
      [UnmountSystemDisks],
      [UnmountSystemDiskBindMounts],
      [Reboot]]
  }

  function ResetSequence(mode: Mode, graceful: bool): seq<Phase>
  {
    match mode
    case Container => [[StopServices], [Shutdown]]
    case NonContainer =>
      if graceful then [
        [CordonAndDrainNode],
        [LeaveEtcd],
        [RemoveAllPods],
        [StopServices],
        [UnmountOverlayFilesystems, UnmountPodMounts],
        [UnmountSystemDisks],
        [UnmountSystemDiskBindMounts],
        [ResetSystemDisk]]
      else [
        [StopServices],
        [UnmountOverlayFilesystems, UnmountPodMounts],
        [UnmountSystemDisks],
        [UnmountSystemDiskBindMounts],
        [ResetSystemDisk]]
  }

  function ShutdownSequence(mode: Mode): seq<Phase>
  {
    match mode
    case Container => [[StopServices], [Shutdown]]
    case NonContainer => [
      [StopServices],
      [UnmountOverlayFilesystems, UnmountPodMounts],
      [UnmountSystemDisks],
      [UnmountSystemDiskBindMounts],
      [Shutdown]]
  }

  /** An upgrade in the container mode runs nothing. */
  function UpgradeSequence(mode: Mode): (phases: seq<Phase>)
    ensures phases == [] <==> mode == Container
  {
    match mode
    case Container => []
    case NonContainer => [
      [CordonAndDrainNode],
      [LeaveEtcd],
      [RemoveAllPods],
      [StopServices],
      [UnmountOverlayFilesystems, UnmountPodMounts],
      [UnmountSystemDisks],
      [VerifyDiskAvailability],
      [Upgrade],
      [StopServices],
      [Reboot]]
  }

  /** A graceful reset first drains the node, leaves etcd and removes pods, then resets. */
  lemma GracefulResetExtendsReset()
    ensures ResetSequence(NonContainer, true)
      == [[CordonAndDrainNode], [LeaveEtcd], [RemoveAllPods]] + ResetSequence(NonContainer, false)
  {
  }

  /** Reboot and shutdown agree on everything but the final phase. */
  lemma RebootShutdownDifferInLastPhase(mode: Mode)
    ensures var r, s := RebootSequence(mode), ShutdownSequence(mode);
      |r| == |s| && |r| > 0 && r[..|r| - 1] == s[..|s| - 1]
      && r[|r| - 1] == [Reboot] && s[|s| - 1] == [Shutdown]
  {
  }

  /** In the container mode, reset and shutdown are the same two phases. */
  lemma ContainerResetIsShutdown(graceful: bool)
    ensures ResetSequence(Container, graceful) == ShutdownSequence(Container) == [[StopServices], [Shutdown]]
  {
  }

  /** Services stop before the overlay and pod unmounts, which precede the system disk unmounts. */
  predicate TeardownOrdered(phases: seq<Phase>)
  {
    && Precedes(phases, StopServices, UnmountOverlayFilesystems)
    && Precedes(phases, StopServices, UnmountPodMounts)
    && Precedes(phases, UnmountOverlayFilesystems, UnmountSystemDisks)
    && Precedes(phases, UnmountPodMounts, UnmountSystemDisks)
    && Precedes(phases, UnmountSystemDisks, UnmountSystemDiskBindMounts)
  }

  /** The unmount order of a reboot outside containers. */
  lemma RebootTeardownOrder()
    ensures TeardownOrdered(RebootSequence(NonContainer))
  {
  }

  /** The unmount order of a shutdown outside containers. */
  lemma ShutdownTeardownOrder()
    ensures TeardownOrdered(ShutdownSequence(NonContainer))
  {
  }

  /** The unmount order of a non-graceful reset outside containers. */
  lemma ResetTeardownOrder()
    ensures TeardownOrdered(ResetSequence(NonContainer, false))
  {
  }

  /**
    The non-container initialisation brings the discovery network up twice,
    the second time after resetting the network, and saves the
    configuration only once the boot partition is mounted.
   */
  lemma InitializeNetworkAndConfigOrder()
    ensures var phases := InitializeSequence(NonContainer);
      PhasesWith(phases, SetupDiscoveryNetwork) == 2
      && RunsBefore(phases, ResetNetwork, SetupDiscoveryNetwork)
      && phases[|phases| - 1] == [SetupDiscoveryNetwork]
      && AlwaysBefore(phases, MountBootPartition, SaveConfig)
  {
  }

  /** Boot validates the configuration first; only outside containers does it mount user disks and finish with the bootloader. */
  lemma BootShape(mode: Mode)
    ensures var phases := BootSequence(mode);
      |phases| > 0 && phases[0] == [ValidateConfig]
      && (PhasesWith(phases, MountUserDisks) > 0 <==> mode == NonContainer)
      && (mode == NonContainer ==> phases[|phases| - 1] == [UpdateBootloader])
  {
    assert PhasesWith(BootSequence(Container), MountUserDisks) == 0;
    assert PhasesWith(BootSequence(NonContainer), MountUserDisks) == 1;
  }

  /** A non-container upgrade stops services both before and after installing, then reboots. */
  lemma UpgradeStopsServicesAroundUpgrade()
    ensures var phases := UpgradeSequence(NonContainer);
      RunsBefore(phases, StopServices, Upgrade) && RunsBefore(phases, Upgrade, StopServices)
      && phases[|phases| - 1] == [Reboot]
  {
    var phases := UpgradeSequence(NonContainer);
    assert StopServices in phases[3] && Upgrade in phases[7] && StopServices in phases[8];
  }
}

=== FILE: wrappers.dfy ===
/** The Option datatype shared by the proxy modules: a Go pointer that may be nil. */
module Wrappers {

  datatype Option<+T> = None | Some(value: T)
}
